=== FILE: README.md ===
# Pure64 directory tree, modelled in Dafny

Pure64 keeps a directory namespace as an in-memory tree (`src/lib/dir.c`). Each node has a name, an ordered
list of subdirectories and an ordered list of files. The tree is built by
name (`pure64_dir_add_file`, `pure64_dir_add_subdir`) or by path
(`pure64_dir_make_subdir`, `pure64_dir_make_file`). It is searched by path
(`pure64_dir_open_subdir`, `pure64_dir_open_file`) and written to and read back
from a stream in a preorder binary layout (`pure64_dir_export`,
`pure64_dir_import`).

This project models those operations as pure functions over an immutable
`Dir` datatype and proves the following about them:

- no two children of a node share a name in a tree built by add and make,
  and every add and make keeps this; import does not check names, so an
  imported tree may hold duplicates (`Scenarios.ImportKeepsDuplicates`), and
  lookups there take the first match;
- a failed mutation changes nothing;
- lookups follow exactly the components they are given;
- import is the inverse of export.

## Layout

| file | module | contents |
|---|---|---|
| results.dfy | `Results` | error kinds, `Option`, `Result`, the status of a mutation |
| bytes.dfy | `Bytes` | bytes and the fixed-width 64-bit integer codec |
| names.dfy | `Names` | names as `strcmp` compares them (`CString`, `Matches`) |
| dirs.dfy | `Dirs` | `File`, `Dir`, init, name lookup, set name, add file or subdirectory, the uniqueness invariant |
| dir_paths.dfy | `DirPaths` | paths, the walk from the root, open and make by path |
| streams.dfy | `Streams` | input and output streams |
| file_codec.dfy | `FileCodec` | a stand-in serialisation for one file entry |
| dir_codec.dfy | `DirCodec` | the DirBlock layout, export and import |
| scenarios.dfy | `Scenarios` | example trees: a root holding `boot`, one holding `boot/kernel` and `readme`, and trees whose children share a name |

Mutations return a `Change`: the node after the call and a status. When the
status is a failure, the node is the one passed in. Paths arrive already
parsed: either a list of components or `Malformed`. A lookup returns an
`Option`, which stands for a pointer that may be NULL.

The model follows the C code:

- Names are compared with `strcmp`, so only the bytes before the first NUL
  count. A name read back by import is `name_size` raw bytes and may contain
  a NUL. `Names.CString` models this.
- The C code reports every failure as -1 or NULL. The model names the guard
  that fired: `DuplicateName`, `InvalidPath`, `NotFound` or `IoError`.
- Component names may be empty, because the code does not check them.

## Model

| member | source | states |
|---|---|---|
| Dirs.Init | src/lib/dir.c:16-23 | a new node has an empty name, no subdirectories and no files, so no name exists in it |
| Dirs.NameExists | src/lib/dir.c:473-488 | true exactly when some file or some subdirectory has a name that `strcmp` finds equal; both lists are searched |
| Dirs.FirstMatch | src/lib/dir.c:376-381 | the scan finds the first index whose name matches, no earlier index matches, and it finds nothing exactly when the name is absent |
| Dirs.SetName | src/lib/dir.c:490-511 | the node takes a name of `strlen` bytes that compares equal to the argument, and its children are untouched |
| Dirs.AddFile | src/lib/dir.c:43-74 | fails with `DuplicateName` exactly when the name is taken by a file or a subdirectory, leaving the node unchanged; otherwise appends exactly one file of that name at the end, earlier files and all subdirectories unchanged |
| Dirs.AddSubdir | src/lib/dir.c:76-107 | fails with `DuplicateName` exactly when the name is taken, leaving the node unchanged; otherwise appends an empty directory of that name at the end of the subdirectories, files unchanged |
| Dirs.AddNames | src/lib/dir.c:43-107 | after an add, a name exists exactly when it existed before or it is the name just added by a successful add; a name never added stays absent |
| Dirs.AddThenExists | src/lib/dir.c:43-107 | after an add, successful or not, the requested name exists |
| Dirs.AddKeepsUnique | src/lib/dir.c:43-107 | a node whose children's names are pairwise distinct keeps this after an add, whether the add succeeds or fails |
| Dirs.UniqueSubdirName | src/lib/dir.c:376-381 | in a node with distinct child names at most one subdirectory matches a name, so the first match is the only one |
| Dirs.UniqueFileName | src/lib/dir.c:459-464 | in a node with distinct child names at most one file matches a name |
| Dirs.UniqueAcrossKinds | src/lib/dir.c:473-488 | in a node with distinct child names no file shares its name with a subdirectory |
| DirPaths.Locate | src/lib/dir.c:364-387 | a successful walk follows subdirectories named exactly by the components, one per step, and ends at a node |
| DirPaths.LocateComplete | src/lib/dir.c:364-387 | in a tree with distinct child names, the walk finds every chain of subdirectories that spells the components |
| DirPaths.LocateSnoc | src/lib/dir.c:218-250 | walking a path is walking its parent path, then matching the last component among that node's subdirectories |
| DirPaths.OpenSubdir | src/lib/dir.c:339-392 | a malformed path opens nothing; zero components open the root; a result is a node reached through subdirectories spelling the path |
| DirPaths.OpenSubdirStep | src/lib/dir.c:368-387 | opening a path takes the first subdirectory matching the first component and opens the rest from there; the open fails at the first component with no match |
| DirPaths.OpenSubdirComplete | src/lib/dir.c:339-392 | in a tree with distinct child names, every node reached by subdirectories spelling the path is what the path opens |
| DirPaths.OpenFile | src/lib/dir.c:394-471 | a malformed path or zero components open nothing; a result is a file named by the last component, held by a node the other components spell |
| DirPaths.OpenFileComplete | src/lib/dir.c:457-464 | in a tree with distinct child names, a file whose name matches the last component, under the node the parent path spells, is what the path opens |
| DirPaths.OpenFileIgnoresSubdirs | src/lib/dir.c:457-470 | in a tree with distinct child names, the last component is matched only among files: a path that opens as a subdirectory does not open as a file |
| DirPaths.Make | src/lib/dir.c:209-250 | a failed make leaves the whole tree unchanged and reports `NotFound` or `DuplicateName`; the root keeps its name |
| DirPaths.MakeFailures | src/lib/dir.c:218-250 | make fails with `NotFound` exactly when the parent path does not open, and with `DuplicateName` exactly when it opens and the leaf's name already exists there; otherwise it succeeds |
| DirPaths.MakeSubdir | src/lib/dir.c:183-259 | fails with `InvalidPath` exactly for a malformed path or zero components; failure leaves the tree unchanged; success means the parent path opened and did not hold the name |
| DirPaths.MakeFile | src/lib/dir.c:261-337 | the same for files |
| DirPaths.MakeReplacesParent | src/lib/dir.c:218-250 | a successful make changes exactly one node, the one the parent path reaches, into the result of the add; no intermediate directory is created |
| DirPaths.MakeAtParent | src/lib/dir.c:218-250 | after a successful make the parent path reaches the same position, which now holds the parent with the new entry |
| DirPaths.MakeSubdirThenOpen | src/lib/dir.c:183-259 | a directory made by a path opens by the same path, as an empty directory of the last component's name |
| DirPaths.MakeFileThenOpen | src/lib/dir.c:261-337 | a file made by a path opens by the same path |
| DirPaths.MakeKeepsWellFormed | src/lib/dir.c:218-250 | making by path keeps children's names distinct at every node, whether it succeeds or fails |
| DirPaths.MakeSubdirKeepsWellFormed | src/lib/dir.c:183-259 | the same for `pure64_dir_make_subdir` |
| DirPaths.MakeFileKeepsWellFormed | src/lib/dir.c:261-337 | the same for `pure64_dir_make_file` |
| Scenarios.MakeUnderExisting | src/lib/dir.c:218-250 | for any names `boot` and `grub`: with a root holding only `boot`, making `boot/grub` succeeds and puts an empty `grub` under `boot` |
| Scenarios.NoAutoCreate | src/lib/dir.c:238-242 | with a root holding only `boot`, making `a/b` for any `a` other than `boot` fails with `NotFound` and leaves the tree as it was |
| Scenarios.OpenKernel | src/lib/dir.c:429-463 | in a tree holding the file `boot/kernel`, that path opens the kernel file |
| Scenarios.OpenMissing | src/lib/dir.c:459-470 | in the same tree, `boot/missing` opens nothing for any name other than `kernel` |
| Scenarios.OpenReadme | src/lib/dir.c:457-463 | in the same tree, `readme` opens the file held at the root |
| Scenarios.SharedNameOpensBoth | src/lib/dir.c:429-464 | in a root holding a subdirectory and a file both named `a` (a tree only import can produce), `a` opens both as that subdirectory and as that file |
| Bytes.DecodeU64 | src/lib/dir.c:138-143 | a read of fewer than eight bytes fails; otherwise it yields a 64-bit value and consumes exactly eight bytes |
| Bytes.DecodeEncodeU64 | src/lib/dir.c:112-114 | decoding an encoded 64-bit value gives it back and leaves the rest of the stream |
| Bytes.EncodeDecodeU64 | src/lib/dir.c:139-141 | the eight bytes a decode consumed are the encoding of the value it returned |
| Streams.WriteConcat | src/lib/dir.c:111-119 | writing two pieces in a row, the second only after the first succeeded, has the same outcome as one write of both: the export's successive writes add up to one write of the whole block |
| DirCodec.ReadHeader | src/lib/dir.c:138-143 | the three counts read fail exactly when fewer than 24 bytes remain, and otherwise consume 24 bytes |
| DirCodec.Import | src/lib/dir.c:136-181 | a successful import returns a tree whose counts fit 64 bits and a strict suffix of the input, shorter by at least the header and the name |
| DirCodec.ExportHeaderWrites | src/lib/dir.c:111-116 | the three count writes together write the 24-byte header, or fail when it does not fit |
| DirCodec.ExportWrites | src/lib/dir.c:108-134 | export writes exactly the DirBlock: three counts, name bytes, every subtree in order, every file in order; it succeeds exactly when the stream has room for the whole block |
| DirCodec.ExportFailsWhenFull | src/lib/dir.c:108-134 | export fails exactly when the stream cannot take the whole block |
| DirCodec.ImportEncoded | src/lib/dir.c:136-181 | importing a DirBlock followed by any bytes gives back the tree and leaves those bytes unread |
| DirCodec.ExportImportRoundTrip | src/lib/dir.c:108-181 | what a successful export appends imports back to the same tree: same names, counts and order at every node |
| DirCodec.ImportShortName | src/lib/dir.c:157-158 | whatever the input, import fails when fewer bytes follow the counts than the declared name size |
| DirCodec.ImportCut | src/lib/dir.c:136-181 | a stream that stops anywhere inside a DirBlock does not import: in a header, a name, a subtree or a file |
| DirCodec.ImportTruncatedFails | src/lib/dir.c:136-181 | every proper prefix of an exported block fails to import with `IoError` |
| Scenarios.ImportKeepsDuplicates | src/lib/dir.c:136-181 | import checks sizes, never names: a block holding two subdirectories of one name reads back as that tree, which breaks the distinct-names invariant |
| FileCodec.ImportEncodedFile | src/lib/dir.c:174-178 | the file block stand-in imports back to the file it encodes |

## Left out

- `pure64_dir_free` and every `malloc`, `realloc` and `free`: values are
  immutable and collected, so ownership and leaks do not arise. Among these
  are the leak when import stops on a short read (dir.c:157-158) and the
  path that is not freed when `pure64_dir_open_file` gets zero components
  (dir.c:423-427).
- Allocation failure (dir.c:57-60, 90-93, 145-155, 497-499): the model's add
  never fails for lack of memory. The C add keeps a stale array pointer when
  naming the new element fails after `realloc` moved the array
  (dir.c:57-68, 90-101). The model's add is atomic instead.
- Dirs.AddFile: the file's own name handling (`pure64_file_init`,
  `pure64_file_set_name`) lives in file.c, which is not part of this model. A
  file is reduced to the name it is given.
- `FILE*` streams: an input stream is the byte sequence still to be read. An
  output stream is a `Sink` with limited room. A short read or write is
  `IoError`. The bytes a failed export leaves in the stream are not modelled.
- DirCodec.Import: on failure the C function leaves the node partly filled.
  The model returns only the error.
- `encode_uint64` and `decode_uint64` (misc.h) are not part of this model.
  They are modelled as an eight-byte base-256 codec whose byte order is a
  parameter, and every property holds for either order.
- DirCodec.ExportHeaderWrites: the C code attempts all three count writes
  and then tests their ORed result. The model stops at the first failed
  write. The outcome (failure) is the same; the stream contents after a
  failure are not modelled.
- `pure64_file_export` and `pure64_file_import` (file.c) are replaced by a
  stand-in block: a 64-bit length, then the name.
- `pure64_path_parse` and `pure64_path_normalize` (path.c) are not part of
  this model. A path arrives as its component list, or as `Malformed` when
  parsing or normalising failed. The NULL checks on `pure64_path_get_name`
  (dir.c:221-224, 298-301, 369-373, 450-455) and the `i != name_count - 1`
  checks (dir.c:245-248, 323-326) cannot fire for a parsed path, so they are
  not modelled.
- The `subdir == NULL` tests (dir.c:230, 308) are dead code: a pointer into an
  array is never NULL.
- Integer widths: the path walks count with `unsigned int` while the node
  counts are 64-bit (dir.c:187-190). Import sizes its buffers as
  `name_size + 1` and `count * sizeof(...)` (dir.c:145-147). The model has
  unbounded counts and no buffers. Trees are required to have counts that
  fit 64 bits (`DirCodec.Fits`) to be exported. Counts of 2^32 or more, and
  sizes that wrap, are not modelled.
- Recursion depth on untrusted input is a stack concern. Import terminates
  because each block consumes at least its 24-byte header.
- Concurrency is not modelled; the tree is used from one thread.
- The root's NULL name after `pure64_dir_init` is modelled as the empty name.

=== FILE: bytes.dfy ===
/** Bytes and the fixed-width 64-bit integer codec of the image format.

  Every integer of the serialised directory tree is an unsigned 64-bit value
  written as eight bytes. The helpers that do this (`encode_uint64` and
  `decode_uint64` in misc.h) are not part of this model, and neither is the
  byte order they fix for the whole system, so the order is a parameter here:
  every property below holds for either choice, and export and import always
  use the same one.
 */
module Bytes {
  import opened Results

  newtype byte = x: int | 0 <= x < 256

  /** Width in bytes of every encoded integer. */
  const U64_WIDTH: nat := 8

  /** One more than the largest value a uint64_t field can hold. */
  const U64_LIMIT: nat := 0x1_0000_0000_0000_0000

  predicate IsU64(x: nat) {
    x < U64_LIMIT
  }

  /** The byte order fixed project-wide by the integer helpers. */
  datatype ByteOrder = LittleEndian | BigEndian

  function Pow256(k: nat): (r: nat)
    ensures r > 0
  {
    if k == 0 then 1 else 256 * Pow256(k - 1)
  }

  /** The `width` low-order base-256 digits of `x`, least significant first. */
  function DigitsOf(x: nat, width: nat): (r: seq<byte>)
    ensures |r| == width
  {
    if width == 0 then [] else [(x % 256) as byte] + DigitsOf(x / 256, width - 1)
  }

  /** The number whose base-256 digits, least significant first, are `bs`. */
  function ValueOf(bs: seq<byte>): (r: nat)
    ensures r < Pow256(|bs|)
  {
    if |bs| == 0 then 0 else bs[0] as nat + 256 * ValueOf(bs[1..])
  }

  lemma {:induction false} ValueOfDigits(x: nat, width: nat)
    requires x < Pow256(width)
    ensures ValueOf(DigitsOf(x, width)) == x
    decreases width
  {
    if width > 0 {
      var ds := DigitsOf(x, width);
      assert ds[1..] == DigitsOf(x / 256, width - 1);
      ValueOfDigits(x / 256, width - 1);
    }
  }

  lemma {:induction false} DigitsOfValue(bs: seq<byte>)
    ensures DigitsOf(ValueOf(bs), |bs|) == bs
  {
    if |bs| > 0 {
      var x := ValueOf(bs);
      assert x % 256 == bs[0] as nat && x / 256 == ValueOf(bs[1..]);
      DigitsOfValue(bs[1..]);
    }
  }

  function Reverse(s: seq<byte>): (r: seq<byte>)
    ensures |r| == |s|
  {
    if |s| == 0 then [] else Reverse(s[1..]) + [s[0]]
  }

  /** Reversal puts the byte at `i` at the mirrored position. */
  lemma {:induction false} ReverseAt(s: seq<byte>, i: nat)
    requires i < |s|
    ensures Reverse(s)[|s| - 1 - i] == s[i]
    decreases |s|
  {
    if i > 0 {
      ReverseAt(s[1..], i - 1);
    }
  }

  lemma {:induction false} ReverseReverse(s: seq<byte>)
    ensures Reverse(Reverse(s)) == s
  {
    var r := Reverse(s);
    forall i | 0 <= i < |s|
      ensures Reverse(r)[i] == s[i]
    {
      ReverseAt(r, |s| - 1 - i);
      ReverseAt(s, i);
    }
  }

  lemma U64LimitIsPow256()
    ensures Pow256(U64_WIDTH) == U64_LIMIT
  {
  }

  /** The eight bytes that represent `x` in the given byte order. */
  function EncodeU64(order: ByteOrder, x: nat): (r: seq<byte>)
    requires IsU64(x)
    ensures |r| == U64_WIDTH
  {
    var digits := DigitsOf(x, U64_WIDTH);
    match order
    case LittleEndian => digits
    case BigEndian => Reverse(digits)
  }

  /** Reads one 64-bit integer from the front of `s`; a stream holding fewer
      than eight bytes is a short read. */
  function DecodeU64(order: ByteOrder, s: seq<byte>): (r: Result<(nat, seq<byte>)>)
    ensures r.Err? <==> |s| < U64_WIDTH
    ensures r.Err? ==> r.error == IoError
    ensures r.Ok? ==> IsU64(r.value.0) && r.value.1 == s[U64_WIDTH..]
  {
    if |s| < U64_WIDTH then Err(IoError)
    else
      U64LimitIsPow256();
      var bytes := s[..U64_WIDTH];
      var x := match order
        case LittleEndian => ValueOf(bytes)
        case BigEndian => ValueOf(Reverse(bytes));
      Ok((x, s[U64_WIDTH..]))
  }

  /** Decoding what was encoded gives back the value and leaves the rest of
      the stream untouched. */
  lemma DecodeEncodeU64(order: ByteOrder, x: nat, rest: seq<byte>)
    requires IsU64(x)
    ensures DecodeU64(order, EncodeU64(order, x) + rest) == Ok((x, rest))
  {
    U64LimitIsPow256();
    var e := EncodeU64(order, x);
    assert (e + rest)[..U64_WIDTH] == e;
    assert (e + rest)[U64_WIDTH..] == rest;
    ValueOfDigits(x, U64_WIDTH);
    if order.BigEndian? {
      ReverseReverse(DigitsOf(x, U64_WIDTH));
    }
  }

  /** Encoding what was decoded gives back the bytes that were read: no two
      byte strings decode to the same value. */
  lemma EncodeDecodeU64(order: ByteOrder, s: seq<byte>)
    requires DecodeU64(order, s).Ok?
    ensures var (x, rest) := DecodeU64(order, s).value;
      s == EncodeU64(order, x) + rest
  {
    var bytes := s[..U64_WIDTH];
    assert s == bytes + s[U64_WIDTH..];
    match order
    case LittleEndian =>
      DigitsOfValue(bytes);
    case BigEndian =>
      DigitsOfValue(Reverse(bytes));
      ReverseReverse(bytes);
  }
}

=== FILE: dir_codec.dfy ===
/** The preorder binary layout of a directory tree (src/lib/dir.c, export and
    import).

    DirBlock  := name_size:u64, subdir_count:u64, file_count:u64,
                 name bytes (name_size of them, no terminator),
                 subdir_count DirBlocks, in order,
                 file_count FileBlocks, in order.

  `Encode` states the layout; `Export` writes it piece by piece to a stream
  that may run out of room, and `Import` reads it back from a stream that may
  end early. Import checks sizes only, never names: a tree read back need not
  satisfy `WellFormed` (`Scenarios.ImportKeepsDuplicates`).
 */
module DirCodec {
  import opened Bytes
  import opened Results
  import opened Streams
  import opened Dirs
  import opened FileCodec

  /** Bytes taken by the three counts that open every block. */
  const HEADER_SIZE: nat := 3 * U64_WIDTH

  /** Every count of the tree fits the 64-bit field the C struct stores it in. */
  predicate Fits(d: Dir) {
    && IsU64(|d.name|) && IsU64(|d.subdirs|) && IsU64(|d.files|)
    && AllFit(d.subdirs) && AllFilesFit(d.files)
  }

  predicate AllFit(ds: seq<Dir>) {
    forall i :: 0 <= i < |ds| ==> Fits(ds[i])
  }

  lemma AllFitCons(d: Dir, ds: seq<Dir>)
    requires Fits(d) && AllFit(ds)
    ensures AllFit([d] + ds)
  {
  }

  predicate AllFilesFit(fs: seq<File>) {
    forall i :: 0 <= i < |fs| ==> FileFits(fs[i])
  }

  /** The three counts that open a DirBlock. */
  datatype Header = Header(nameSize: nat, subdirCount: nat, fileCount: nat)

  function HeaderOf(d: Dir): Header {
    Header(|d.name|, |d.subdirs|, |d.files|)
  }

  predicate HeaderFits(h: Header) {
    IsU64(h.nameSize) && IsU64(h.subdirCount) && IsU64(h.fileCount)
  }

  function EncodeHeader(order: ByteOrder, h: Header): (r: seq<byte>)
    requires HeaderFits(h)
    ensures |r| == HEADER_SIZE
  {
    EncodeU64(order, h.nameSize) + EncodeU64(order, h.subdirCount) + EncodeU64(order, h.fileCount)
  }

  /** The three `decode_uint64` calls that open `pure64_dir_import`. */
  function ReadHeader(order: ByteOrder, s: seq<byte>): (r: Result<(Header, seq<byte>)>)
    ensures r.Err? <==> |s| < HEADER_SIZE
    ensures r.Err? ==> r.error == IoError
    ensures r.Ok? ==> HeaderFits(r.value.0) && r.value.1 == s[HEADER_SIZE..]
  {
    match DecodeU64(order, s)
    case Err(e) => Err(e)
    case Ok((nameSize, s1)) =>
      match DecodeU64(order, s1)
      case Err(e) => Err(e)
      case Ok((subdirCount, s2)) =>
        match DecodeU64(order, s2)
        case Err(e) => Err(e)
        case Ok((fileCount, s3)) => Ok((Header(nameSize, subdirCount, fileCount), s3))
  }

  lemma ReadEncodedHeader(order: ByteOrder, h: Header, rest: seq<byte>)
    requires HeaderFits(h)
    ensures ReadHeader(order, EncodeHeader(order, h) + rest) == Ok((h, rest))
  {
    var h1, h2, h3 := EncodeU64(order, h.nameSize), EncodeU64(order, h.subdirCount), EncodeU64(order, h.fileCount);
    assert EncodeHeader(order, h) + rest == h1 + (h2 + (h3 + rest));
    DecodeEncodeU64(order, h.nameSize, h2 + (h3 + rest));
    DecodeEncodeU64(order, h.subdirCount, h3 + rest);
    DecodeEncodeU64(order, h.fileCount, rest);
  }

  /** `fread` of exactly `n` bytes; fewer remaining is a short read. */
  function ReadBytes(n: nat, s: seq<byte>): (r: Result<(seq<byte>, seq<byte>)>)
    ensures r.Err? <==> |s| < n
    ensures r.Err? ==> r.error == IoError
    ensures r.Ok? ==> |r.value.0| == n && s == r.value.0 + r.value.1
  {
    if |s| < n then Err(IoError) else Ok((s[..n], s[n..]))
  }

  lemma ReadBytesPrefix(bytes: seq<byte>, rest: seq<byte>)
    ensures ReadBytes(|bytes|, bytes + rest) == Ok((bytes, rest))
  {
    assert (bytes + rest)[..|bytes|] == bytes;
    assert (bytes + rest)[|bytes|..] == rest;
  }

  /** The DirBlock of `d`. */
  function Encode(order: ByteOrder, d: Dir): seq<byte>
    requires Fits(d)
    decreases d
  {
    EncodeHeader(order, HeaderOf(d)) + d.name + EncodeDirs(order, d.subdirs) + EncodeFiles(order, d.files)
  }

  /** The DirBlock of `d` as header, name and the blocks of its children. */
  lemma EncodeParts(order: ByteOrder, d: Dir)
    requires Fits(d)
    ensures Encode(order, d) == EncodeHeader(order, HeaderOf(d))
      + (d.name + (EncodeDirs(order, d.subdirs) + EncodeFiles(order, d.files)))
  {
    var hd, ed, ef := EncodeHeader(order, HeaderOf(d)), EncodeDirs(order, d.subdirs), EncodeFiles(order, d.files);
    AppendAssoc(hd, d.name, ed + ef);
    AppendAssoc(hd + d.name, ed, ef);
  }

  /** The same, with whatever follows the block in the stream. */
  lemma EncodePartsThen(order: ByteOrder, d: Dir, rest: seq<byte>)
    requires Fits(d)
    ensures Encode(order, d) + rest == EncodeHeader(order, HeaderOf(d))
      + (d.name + (EncodeDirs(order, d.subdirs) + (EncodeFiles(order, d.files) + rest)))
  {
    var hd, ed, ef := EncodeHeader(order, HeaderOf(d)), EncodeDirs(order, d.subdirs), EncodeFiles(order, d.files);
    EncodeParts(order, d);
    AppendAssoc(hd, d.name + (ed + ef), rest);
    AppendAssoc(d.name, ed + ef, rest);
    AppendAssoc(ed, ef, rest);
  }

  /** The DirBlocks of `ds`, one after the other. */
  function EncodeDirs(order: ByteOrder, ds: seq<Dir>): seq<byte>
    requires AllFit(ds)
    decreases ds
  {
    if |ds| == 0 then [] else Encode(order, ds[0]) + EncodeDirs(order, ds[1..])
  }

  /** The FileBlocks of `fs`, one after the other. */
  function EncodeFiles(order: ByteOrder, fs: seq<File>): seq<byte>
    requires AllFilesFit(fs)
  {
    if |fs| == 0 then [] else EncodeFile(order, fs[0]) + EncodeFiles(order, fs[1..])
  }

  lemma EncodeFilesCons(order: ByteOrder, f: File, fs: seq<File>)
    requires FileFits(f) && AllFilesFit(fs)
    ensures EncodeFiles(order, [f] + fs) == EncodeFile(order, f) + EncodeFiles(order, fs)
  {
    assert ([f] + fs)[0] == f && ([f] + fs)[1..] == fs;
  }

  lemma EncodeDirsCons(order: ByteOrder, d: Dir, ds: seq<Dir>)
    requires Fits(d) && AllFit(ds)
    ensures EncodeDirs(order, [d] + ds) == Encode(order, d) + EncodeDirs(order, ds)
  {
    assert ([d] + ds)[0] == d && ([d] + ds)[1..] == ds;
  }

  /** `pure64_dir_import`: read the three counts, then the name bytes, then
      `subdir_count` subtrees, then `file_count` files. Any short read fails
      the whole import. On success the result is the tree and the input that
      follows its block. */
  function Import(order: ByteOrder, s: seq<byte>): (r: Result<(Dir, seq<byte>)>)
    ensures r.Ok? ==> Fits(r.value.0)
    ensures r.Ok? ==> |r.value.1| < |s| && IsSuffix(r.value.1, s)
    ensures r.Ok? ==> |s| >= HEADER_SIZE + |r.value.0.name| + |r.value.1|
    ensures r.Err? ==> r.error == IoError
    decreases |s|, 0
  {
    match ReadHeader(order, s)
    case Err(e) => Err(e)
    case Ok((h, s1)) =>
      match ReadBytes(h.nameSize, s1)
      case Err(e) => Err(e)
      case Ok((name, s2)) =>
        match ImportDirs(order, h.subdirCount, s2)
        case Err(e) => Err(e)
        case Ok((subdirs, s3)) =>
          match ImportFiles(order, h.fileCount, s3)
          case Err(e) => Err(e)
          case Ok((files, s4)) => Ok((Dir(name, subdirs, files), s4))
  }

  /** The subdirectory loop of `pure64_dir_import`: `n` subtrees, in order. */
  function ImportDirs(order: ByteOrder, n: nat, s: seq<byte>): (r: Result<(seq<Dir>, seq<byte>)>)
    ensures r.Ok? ==> |r.value.0| == n && AllFit(r.value.0)
    ensures r.Ok? ==> IsSuffix(r.value.1, s)
    ensures r.Err? ==> r.error == IoError
    decreases |s|, 1
  {
    if n == 0 then Ok(([], s))
    else
      match Import(order, s)
      case Err(e) => Err(e)
      case Ok((d, s1)) =>
        match ImportDirs(order, n - 1, s1)
        case Err(e) => Err(e)
        case Ok((ds, s2)) =>
          SuffixTrans(s2, s1, s);
          AllFitCons(d, ds);
          Ok(([d] + ds, s2))
  }

  /** The file loop of `pure64_dir_import`: `n` files, in order. */
  function ImportFiles(order: ByteOrder, n: nat, s: seq<byte>): (r: Result<(seq<File>, seq<byte>)>)
    ensures r.Ok? ==> |r.value.0| == n && AllFilesFit(r.value.0)
    ensures r.Ok? ==> IsSuffix(r.value.1, s)
    ensures r.Err? ==> r.error == IoError
  {
    if n == 0 then Ok(([], s))
    else
      match ImportFile(order, s)
      case Err(e) => Err(e)
      case Ok((f, s1)) =>
        match ImportFiles(order, n - 1, s1)
        case Err(e) => Err(e)
        case Ok((fs, s2)) =>
          SuffixTrans(s2, s1, s);
          Ok(([f] + fs, s2))
  }

  /** The three `encode_uint64` calls that open `pure64_dir_export`. The C
      code ORs their three results before testing them; since a failed write
      fails the export either way, stopping at the first one has the same
      outcome. */
  function ExportHeader(order: ByteOrder, h: Header, out: Sink): Result<Sink>
    requires HeaderFits(h)
  {
    match Write(out, EncodeU64(order, h.nameSize))
    case Err(e) => Err(e)
    case Ok(o1) =>
      match Write(o1, EncodeU64(order, h.subdirCount))
      case Err(e) => Err(e)
      case Ok(o2) => Write(o2, EncodeU64(order, h.fileCount))
  }

  /** `pure64_dir_export`: write the three counts, the name bytes, every
      subtree in order, then every file in order, stopping at the first
      write that fails. */
  function Export(order: ByteOrder, d: Dir, out: Sink): Result<Sink>
    requires Fits(d)
    decreases d, 1
  {
    match ExportHeader(order, HeaderOf(d), out)
    case Err(e) => Err(e)
    case Ok(o1) =>
      match Write(o1, d.name)
      case Err(e) => Err(e)
      case Ok(o2) => ExportChildren(order, d, o2)
  }

  /** The two loops of `pure64_dir_export`: subtrees, then files. */
  function ExportChildren(order: ByteOrder, d: Dir, out: Sink): Result<Sink>
    requires Fits(d)
    decreases d, 0
  {
    match ExportDirs(order, d.subdirs, out)
    case Err(e) => Err(e)
    case Ok(o) => ExportFiles(order, d.files, o)
  }

  /** The subdirectory loop of `pure64_dir_export`. */
  function ExportDirs(order: ByteOrder, ds: seq<Dir>, out: Sink): Result<Sink>
    requires AllFit(ds)
    decreases ds
  {
    if |ds| == 0 then Ok(out)
    else
      match Export(order, ds[0], out)
      case Err(e) => Err(e)
      case Ok(o) => ExportDirs(order, ds[1..], o)
  }

  /** The file loop of `pure64_dir_export`. */
  function ExportFiles(order: ByteOrder, fs: seq<File>, out: Sink): Result<Sink>
    requires AllFilesFit(fs)
  {
    if |fs| == 0 then Ok(out)
    else
      match ExportFile(order, fs[0], out)
      case Err(e) => Err(e)
      case Ok(o) => ExportFiles(order, fs[1..], o)
  }

  lemma ExportHeaderWrites(order: ByteOrder, h: Header, out: Sink)
    requires HeaderFits(h)
    ensures ExportHeader(order, h, out) == Write(out, EncodeHeader(order, h))
  {
    var h1, h2, h3 := EncodeU64(order, h.nameSize), EncodeU64(order, h.subdirCount), EncodeU64(order, h.fileCount);
    WriteConcat(out, h1 + h2, h3);
    WriteConcat(out, h1, h2);
  }

  /** Export writes exactly the DirBlock of the tree: it succeeds when the
      stream has room for the whole block, appending it, and fails otherwise. */
  lemma {:induction false} ExportWrites(order: ByteOrder, d: Dir, out: Sink)
    requires Fits(d)
    ensures Export(order, d, out) == Write(out, Encode(order, d))
    decreases d, 1
  {
    var hd := EncodeHeader(order, HeaderOf(d));
    var body := EncodeDirs(order, d.subdirs) + EncodeFiles(order, d.files);
    EncodeParts(order, d);
    ExportHeaderWrites(order, HeaderOf(d), out);
    WriteConcat(out, hd, d.name + body);
    if Write(out, hd).Ok? {
      var o1 := Write(out, hd).value;
      WriteConcat(o1, d.name, body);
      if Write(o1, d.name).Ok? {
        ExportChildrenWrites(order, d, Write(o1, d.name).value);
      }
    }
  }

  lemma {:induction false} ExportChildrenWrites(order: ByteOrder, d: Dir, out: Sink)
    requires Fits(d)
    ensures ExportChildren(order, d, out)
      == Write(out, EncodeDirs(order, d.subdirs) + EncodeFiles(order, d.files))
    decreases d, 0
  {
    var ed, ef := EncodeDirs(order, d.subdirs), EncodeFiles(order, d.files);
    ExportDirsWrites(order, d.subdirs, out);
    WriteConcat(out, ed, ef);
    match Write(out, ed)
    case Err(_) =>
    case Ok(o) =>
      ExportFilesWrites(order, d.files, o);
  }

  lemma {:induction false} ExportDirsWrites(order: ByteOrder, ds: seq<Dir>, out: Sink)
    requires AllFit(ds)
    ensures ExportDirs(order, ds, out) == Write(out, EncodeDirs(order, ds))
    decreases ds
  {
    if |ds| == 0 {
      assert out.written + [] == out.written;
    } else {
      ExportWrites(order, ds[0], out);
      WriteConcat(out, Encode(order, ds[0]), EncodeDirs(order, ds[1..]));
      match Write(out, Encode(order, ds[0]))
      case Err(_) =>
      case Ok(o) =>
        ExportDirsWrites(order, ds[1..], o);
    }
  }

  lemma {:induction false} ExportFilesWrites(order: ByteOrder, fs: seq<File>, out: Sink)
    requires AllFilesFit(fs)
    ensures ExportFiles(order, fs, out) == Write(out, EncodeFiles(order, fs))
  {
    if |fs| == 0 {
      assert out.written + [] == out.written;
    } else {
      ExportFileWrites(order, fs[0], out);
      WriteConcat(out, EncodeFile(order, fs[0]), EncodeFiles(order, fs[1..]));
      match Write(out, EncodeFile(order, fs[0]))
      case Err(_) =>
      case Ok(o) =>
        ExportFilesWrites(order, fs[1..], o);
    }
  }

  /** Import succeeds when each of its four reads does, one after the other. */
  lemma ImportFromParts(order: ByteOrder, s: seq<byte>, h: Header, name: seq<byte>,
                        ds: seq<Dir>, fs: seq<File>, s1: seq<byte>, s2: seq<byte>, s3: seq<byte>, s4: seq<byte>)
    requires ReadHeader(order, s) == Ok((h, s1))
    requires ReadBytes(h.nameSize, s1) == Ok((name, s2))
    requires ImportDirs(order, h.subdirCount, s2) == Ok((ds, s3))
    requires ImportFiles(order, h.fileCount, s3) == Ok((fs, s4))
    ensures Import(order, s) == Ok((Dir(name, ds, fs), s4))
  {
  }

  /** Import is the inverse of the layout: reading a DirBlock gives back the
      tree it encodes and leaves whatever follows it unread. */
  lemma {:induction false} ImportEncoded(order: ByteOrder, d: Dir, rest: seq<byte>)
    requires Fits(d)
    ensures Import(order, Encode(order, d) + rest) == Ok((d, rest))
    decreases d
  {
    var ed, ef := EncodeDirs(order, d.subdirs), EncodeFiles(order, d.files);
    var s3 := ef + rest;
    var s2 := ed + s3;
    var s1 := d.name + s2;
    var s := Encode(order, d) + rest;
    EncodePartsThen(order, d, rest);
    ReadEncodedHeader(order, HeaderOf(d), s1);
    ReadBytesPrefix(d.name, s2);
    ImportEncodedDirs(order, d.subdirs, s3);
    ImportEncodedFiles(order, d.files, rest);
    ImportFromParts(order, s, HeaderOf(d), d.name, d.subdirs, d.files, s1, s2, s3, rest);
  }

  lemma {:induction false} ImportEncodedDirs(order: ByteOrder, ds: seq<Dir>, rest: seq<byte>)
    requires AllFit(ds)
    ensures ImportDirs(order, |ds|, EncodeDirs(order, ds) + rest) == Ok((ds, rest))
    decreases ds
  {
    if |ds| > 0 {
      var tail := EncodeDirs(order, ds[1..]) + rest;
      EncodeDirsCons(order, ds[0], ds[1..]);
      assert [ds[0]] + ds[1..] == ds;
      AppendAssoc(Encode(order, ds[0]), EncodeDirs(order, ds[1..]), rest);
      ImportEncoded(order, ds[0], tail);
      ImportEncodedDirs(order, ds[1..], rest);
    }
  }

  lemma {:induction false} ImportEncodedFiles(order: ByteOrder, fs: seq<File>, rest: seq<byte>)
    requires AllFilesFit(fs)
    ensures ImportFiles(order, |fs|, EncodeFiles(order, fs) + rest) == Ok((fs, rest))
  {
    if |fs| > 0 {
      var tail := EncodeFiles(order, fs[1..]) + rest;
      EncodeFilesCons(order, fs[0], fs[1..]);
      assert [fs[0]] + fs[1..] == fs;
      AppendAssoc(EncodeFile(order, fs[0]), EncodeFiles(order, fs[1..]), rest);
      ImportEncodedFile(order, fs[0], tail);
      ImportEncodedFiles(order, fs[1..], rest);
    }
  }

  /** A stream that ends anywhere inside a DirBlock, in a header, in a name,
      or in any subtree or file, is rejected as a short read. */
  lemma {:induction false} ImportCut(order: ByteOrder, d: Dir, t: seq<byte>)
    requires Fits(d) && CutShort(t, Encode(order, d))
    ensures Import(order, t) == Err(IoError)
    decreases d
  {
    var hd := EncodeHeader(order, HeaderOf(d));
    var ed, ef := EncodeDirs(order, d.subdirs), EncodeFiles(order, d.files);
    EncodeParts(order, d);
    if |t| >= |hd| {
      CutShortSplit(t, hd, d.name + (ed + ef));
      var t1 := t[|hd|..];
      ReadEncodedHeader(order, HeaderOf(d), t1);
      if |t1| >= |d.name| {
        CutShortSplit(t1, d.name, ed + ef);
        var t2 := t1[|d.name|..];
        ReadBytesPrefix(d.name, t2);
        if |t2| < |ed| {
          CutShortInside(t2, ed, ef);
          ImportDirsCut(order, d.subdirs, t2);
        } else {
          CutShortSplit(t2, ed, ef);
          var t3 := t2[|ed|..];
          ImportEncodedDirs(order, d.subdirs, t3);
          ImportFilesCut(order, d.files, t3);
        }
      }
    }
  }

  lemma {:induction false} ImportDirsCut(order: ByteOrder, ds: seq<Dir>, t: seq<byte>)
    requires AllFit(ds) && CutShort(t, EncodeDirs(order, ds))
    ensures ImportDirs(order, |ds|, t) == Err(IoError)
    decreases ds
  {
    var e0, rest := Encode(order, ds[0]), EncodeDirs(order, ds[1..]);
    if |t| < |e0| {
      CutShortInside(t, e0, rest);
      ImportCut(order, ds[0], t);
    } else {
      CutShortSplit(t, e0, rest);
      ImportEncoded(order, ds[0], t[|e0|..]);
      ImportDirsCut(order, ds[1..], t[|e0|..]);
    }
  }

  lemma {:induction false} ImportFilesCut(order: ByteOrder, fs: seq<File>, t: seq<byte>)
    requires AllFilesFit(fs) && CutShort(t, EncodeFiles(order, fs))
    ensures ImportFiles(order, |fs|, t) == Err(IoError)
  {
    var e0, rest := EncodeFile(order, fs[0]), EncodeFiles(order, fs[1..]);
    if |t| < |e0| {
      CutShortInside(t, e0, rest);
      ImportFileCut(order, fs[0], t);
    } else {
      CutShortSplit(t, e0, rest);
      ImportEncodedFile(order, fs[0], t[|e0|..]);
      ImportFilesCut(order, fs[1..], t[|e0|..]);
    }
  }

  /** Whatever the stream, import fails when fewer bytes follow the three
      counts than the name size they declare. */
  lemma ImportShortName(order: ByteOrder, s: seq<byte>)
    requires ReadHeader(order, s).Ok?
    requires |ReadHeader(order, s).value.1| < ReadHeader(order, s).value.0.nameSize
    ensures Import(order, s) == Err(IoError)
  {
  }

  /** Every truncation of an exported block fails to import. */
  lemma ImportTruncatedFails(order: ByteOrder, d: Dir, k: nat)
    requires Fits(d) && k < |Encode(order, d)|
    ensures Import(order, Encode(order, d)[..k]) == Err(IoError)
  {
    ImportCut(order, d, Encode(order, d)[..k]);
  }

  /** What `pure64_dir_export` writes, `pure64_dir_import` reads back: the
      same names, the same counts and the same order at every node, with the
      input after the block left unread. */
  lemma ExportImportRoundTrip(order: ByteOrder, d: Dir, out: Sink, rest: seq<byte>)
    requires Fits(d) && Export(order, d, out).Ok?
    ensures var written := Export(order, d, out).value.written;
      && |written| >= |out.written|
      && Import(order, written[|out.written|..] + rest) == Ok((d, rest))
  {
    ExportWrites(order, d, out);
    var written := Export(order, d, out).value.written;
    assert written[|out.written|..] == Encode(order, d);
    ImportEncoded(order, d, rest);
  }

  /** Export fails exactly when the stream cannot take the whole block. */
  lemma ExportFailsWhenFull(order: ByteOrder, d: Dir, out: Sink)
    requires Fits(d)
    ensures Export(order, d, out).Err? <==> out.room < |Encode(order, d)|
  {
    ExportWrites(order, d, out);
  }
}

=== FILE: dir_paths.dfy ===
/** Path-driven creation and lookup (src/lib/dir.c, make and open).

  A path reaches these functions already parsed and normalised by the path
  helpers of path.c, which are not part of this model: it is either the list
  of its components, each a C string, or `Malformed` when parsing or
  normalising failed.

  Every walk starts at the root and, for each component it consumes, moves to
  the first subdirectory of the current node whose name matches. Missing
  intermediate directories are never created.
 */
module DirPaths {
  import opened Bytes
  import opened Names
  import opened Results
  import opened Dirs

  datatype Path = Components(names: seq<Name>) | Malformed

  /** All components but the last: the path of the parent. */
  function Parent(cs: seq<Name>): seq<Name>
    requires |cs| > 0
  {
    cs[..|cs| - 1]
  }

  /** The last component: the name of the entry itself. */
  function Leaf(cs: seq<Name>): Name
    requires |cs| > 0
  {
    cs[|cs| - 1]
  }

  /** The node reached from `root` by taking subdirectory `idx[0]`, then
      `idx[1]` of that one, and so on; the model of a pointer into the tree. */
  function NodeAt(root: Dir, idx: seq<nat>): Option<Dir>
    decreases |idx|
  {
    if |idx| == 0 then Some(root)
    else if idx[0] < |root.subdirs| then NodeAt(root.subdirs[idx[0]], idx[1..])
    else None
  }

  /** Following the indices `idx` from `root` passes through subdirectories
      named exactly `cs[0]`, `cs[1]`, ..., one component per step. */
  predicate Spells(root: Dir, idx: seq<nat>, cs: seq<Name>)
    decreases |idx|
  {
    && |idx| == |cs|
    && (|idx| == 0
        || (&& idx[0] < |root.subdirs|
            && Matches(root.subdirs[idx[0]].name, cs[0])
            && Spells(root.subdirs[idx[0]], idx[1..], cs[1..])))
  }

  /** The walk shared by every path operation: resolve each component through
      the subdirectories of the node reached so far, giving up at the first
      component that has no match. */
  function Locate(root: Dir, cs: seq<Name>): (r: Option<seq<nat>>)
    ensures r.Some? ==> Spells(root, r.value, cs) && NodeAt(root, r.value).Some?
    decreases |cs|
  {
    if |cs| == 0 then Some([])
    else match FirstMatch(SubdirNames(root.subdirs), cs[0])
      case None => None
      case Some(j) =>
        match Locate(root.subdirs[j], cs[1..])
        case None => None
        case Some(rest) =>
          assert ([j] + rest)[1..] == rest;
          Some([j] + rest)
  }

  /** In a tree whose nodes have distinct child names, the walk finds every
      index path that spells the components: a lookup misses only when no
      subdirectory chain carries those names. */
  lemma {:induction false} LocateComplete(root: Dir, idx: seq<nat>, cs: seq<Name>)
    requires WellFormed(root)
    requires Spells(root, idx, cs)
    ensures Locate(root, cs) == Some(idx)
    decreases |cs|
  {
    if |cs| > 0 {
      var names := SubdirNames(root.subdirs);
      assert names[idx[0]] == cs[0];
      var j := FirstMatch(names, cs[0]).value;
      UniqueSubdirName(root, j, idx[0]);
      LocateComplete(root.subdirs[j], idx[1..], cs[1..]);
      assert [j] + idx[1..] == idx;
    }
  }

  /** Resolving one more component is resolving the parent path, then
      matching the last component among the parent's subdirectories. */
  lemma {:induction false} LocateSnoc(root: Dir, cs: seq<Name>)
    requires |cs| > 0
    ensures Locate(root, cs) ==
      match Locate(root, Parent(cs))
      case None => None
      case Some(idx) =>
        match FirstMatch(SubdirNames(NodeAt(root, idx).value.subdirs), Leaf(cs))
        case None => None
        case Some(k) => Some(idx + [k])
    decreases |cs|
  {
    if |cs| > 1 {
      assert Parent(cs)[0] == cs[0];
      assert Parent(cs)[1..] == Parent(cs[1..]);
      assert Leaf(cs[1..]) == Leaf(cs);
      match FirstMatch(SubdirNames(root.subdirs), cs[0])
      case None =>
      case Some(j) =>
        LocateSnoc(root.subdirs[j], cs[1..]);
        match Locate(root.subdirs[j], Parent(cs[1..]))
        case None =>
        case Some(rest) =>
          assert ([j] + rest)[1..] == rest;
          match FirstMatch(SubdirNames(NodeAt(root.subdirs[j], rest).value.subdirs), Leaf(cs))
          case None =>
          case Some(k) =>
            assert ([j] + (rest + [k]))[1..] == rest + [k];
            assert [j] + (rest + [k]) == [j] + rest + [k];
    } else {
      assert Parent(cs) == [];
      assert Leaf(cs) == cs[0];
      assert cs[1..] == [];
      match FirstMatch(SubdirNames(root.subdirs), cs[0])
      case None =>
      case Some(j) =>
        assert Locate(root.subdirs[j], []) == Some([]);
        assert [j] + [] == [] + [j];
    }
  }

  /** Every node of a tree whose nodes have distinct child names has distinct
      child names. */
  lemma {:induction false} WellFormedAt(root: Dir, idx: seq<nat>)
    requires WellFormed(root)
    requires NodeAt(root, idx).Some?
    ensures WellFormed(NodeAt(root, idx).value)
    decreases |idx|
  {
    if |idx| > 0 {
      WellFormedAt(root.subdirs[idx[0]], idx[1..]);
    }
  }

  /** `pure64_dir_open_subdir`: the subdirectory every component leads to,
      the root itself for zero components, nothing at the first miss. */
  function OpenSubdir(root: Dir, p: Path): (r: Option<Dir>)
    ensures p.Malformed? ==> r.None?
    ensures p.Components? && |p.names| == 0 ==> r == Some(root)
    ensures r.Some? ==> p.Components?
    ensures r.Some? ==> exists idx :: Spells(root, idx, p.names) && NodeAt(root, idx) == r
  {
    match p
    case Malformed => None
    case Components(cs) =>
      match Locate(root, cs)
      case None => None
      case Some(idx) => NodeAt(root, idx)
  }

  /** The lookup misses nothing that is there. */
  lemma {:induction false} OpenSubdirComplete(root: Dir, idx: seq<nat>, cs: seq<Name>)
    requires WellFormed(root)
    requires Spells(root, idx, cs)
    ensures OpenSubdir(root, Components(cs)) == NodeAt(root, idx)
    ensures NodeAt(root, idx).Some?
  {
    LocateComplete(root, idx, cs);
  }

  /** `pure64_dir_open_file`: resolve all but the last component through
      subdirectories, then look the last one up among the files of the
      directory reached. Zero components find nothing. */
  function OpenFile(root: Dir, p: Path): (r: Option<File>)
    ensures p.Malformed? ==> r.None?
    ensures p.Components? && |p.names| == 0 ==> r.None?
    ensures r.Some? ==> p.Components? && |p.names| > 0 && Matches(r.value.name, Leaf(p.names))
    ensures r.Some? ==> exists idx :: && Spells(root, idx, Parent(p.names))
                                      && NodeAt(root, idx).Some?
                                      && r.value in NodeAt(root, idx).value.files
  {
    match p
    case Malformed => None
    case Components(cs) =>
      if |cs| == 0 then None
      else match Locate(root, Parent(cs))
        case None => None
        case Some(idx) =>
          var dir := NodeAt(root, idx).value;
          match FirstMatch(FileNames(dir.files), Leaf(cs))
          case None => None
          case Some(k) => Some(dir.files[k])
  }

  /** The file lookup misses nothing that is there. */
  lemma OpenFileComplete(root: Dir, cs: seq<Name>, idx: seq<nat>, k: nat)
    requires WellFormed(root)
    requires |cs| > 0 && Spells(root, idx, Parent(cs))
    requires NodeAt(root, idx).Some? && k < |NodeAt(root, idx).value.files|
    requires Matches(NodeAt(root, idx).value.files[k].name, Leaf(cs))
    ensures OpenFile(root, Components(cs)) == Some(NodeAt(root, idx).value.files[k])
  {
    var dir := NodeAt(root, idx).value;
    LocateComplete(root, idx, Parent(cs));
    WellFormedAt(root, idx);
    var j := FirstMatch(FileNames(dir.files), Leaf(cs)).value;
    UniqueFileName(dir, j, k);
  }

  /** The last component is matched only among files: a path that names a
      subdirectory does not open as a file. */
  lemma {:induction false} OpenFileIgnoresSubdirs(root: Dir, cs: seq<Name>)
    requires WellFormed(root)
    requires |cs| > 0 && OpenSubdir(root, Components(cs)).Some?
    ensures OpenFile(root, Components(cs)).None?
  {
    LocateSnoc(root, cs);
    var idx := Locate(root, Parent(cs)).value;
    var dir := NodeAt(root, idx).value;
    WellFormedAt(root, idx);
    var k := FirstMatch(SubdirNames(dir.subdirs), Leaf(cs)).value;
    match FirstMatch(FileNames(dir.files), Leaf(cs))
    case None =>
    case Some(j) =>
      UniqueAcrossKinds(dir, j, k);
  }

  /** The walk of `pure64_dir_make_subdir` and `pure64_dir_make_file`: resolve
      every component but the last, then add the last one to the directory
      reached. A failure anywhere leaves the whole tree as it was. */
  function Make(root: Dir, cs: seq<Name>, kind: Kind): (r: Change)
    requires |cs| > 0
    ensures r.status.Failed? ==> r.dir == root
    ensures r.status.Failed? ==> r.status.error == NotFound || r.status.error == DuplicateName
    ensures r.dir.name == root.name
    decreases |cs|
  {
    if |cs| == 1 then
      Add(root, cs[0], kind)
    else
      match FirstMatch(SubdirNames(root.subdirs), cs[0])
      case None => Change(root, Failed(NotFound))
      case Some(j) =>
        var c := Make(root.subdirs[j], cs[1..], kind);
        assert c.status.Failed? ==> root.subdirs[j := c.dir] == root.subdirs;
        Change(root.(subdirs := root.subdirs[j := c.dir]), c.status)
  }

  /** Opening a path is taking the subdirectory its first component names,
      then opening the rest of the path from there. */
  lemma OpenSubdirStep(root: Dir, cs: seq<Name>)
    requires |cs| > 0
    ensures OpenSubdir(root, Components(cs)) ==
      match FirstMatch(SubdirNames(root.subdirs), cs[0])
      case None => None
      case Some(j) => OpenSubdir(root.subdirs[j], Components(cs[1..]))
  {
    match FirstMatch(SubdirNames(root.subdirs), cs[0])
    case None =>
    case Some(j) =>
      match Locate(root.subdirs[j], cs[1..])
      case None =>
      case Some(rest) =>
        assert ([j] + rest)[0] == j && ([j] + rest)[1..] == rest;
  }

  /** Make fails for a missing intermediate directory exactly when the parent
      path does not open, and for a duplicate exactly when the parent opens
      and already holds an entry of the leaf's name; otherwise it succeeds. */
  lemma {:induction false} MakeFailures(root: Dir, cs: seq<Name>, kind: Kind)
    requires |cs| > 0
    ensures Make(root, cs, kind).status == Failed(NotFound)
      <==> OpenSubdir(root, Components(Parent(cs))).None?
    ensures Make(root, cs, kind).status == Failed(DuplicateName)
      <==> (&& OpenSubdir(root, Components(Parent(cs))).Some?
            && NameExists(OpenSubdir(root, Components(Parent(cs))).value, Leaf(cs)))
    decreases |cs|
  {
    if |cs| == 1 {
      assert Parent(cs) == [];
    } else {
      assert Parent(cs)[0] == cs[0] && Parent(cs)[1..] == Parent(cs[1..]);
      assert Leaf(cs[1..]) == Leaf(cs);
      OpenSubdirStep(root, Parent(cs));
      match FirstMatch(SubdirNames(root.subdirs), cs[0])
      case None =>
      case Some(j) =>
        MakeFailures(root.subdirs[j], cs[1..], kind);
    }
  }

  /** `pure64_dir_make_subdir`. */
  function MakeSubdir(root: Dir, p: Path): (r: Change)
    ensures r.status.Failed? ==> r.dir == root
    ensures r.status == Failed(InvalidPath) <==> p.Malformed? || |p.names| == 0
    ensures r.status.Done? ==>
      && p.Components? && |p.names| > 0
      && OpenSubdir(root, Components(Parent(p.names))).Some?
      && !NameExists(OpenSubdir(root, Components(Parent(p.names))).value, Leaf(p.names))
  {
    if p.Malformed? || |p.names| == 0 then Change(root, Failed(InvalidPath))
    else
      MakeFailures(root, p.names, AsSubdir);
      Make(root, p.names, AsSubdir)
  }

  /** `pure64_dir_make_file`. */
  function MakeFile(root: Dir, p: Path): (r: Change)
    ensures r.status.Failed? ==> r.dir == root
    ensures r.status == Failed(InvalidPath) <==> p.Malformed? || |p.names| == 0
    ensures r.status.Done? ==>
      && p.Components? && |p.names| > 0
      && OpenSubdir(root, Components(Parent(p.names))).Some?
      && !NameExists(OpenSubdir(root, Components(Parent(p.names))).value, Leaf(p.names))
  {
    if p.Malformed? || |p.names| == 0 then Change(root, Failed(InvalidPath))
    else
      MakeFailures(root, p.names, AsFile);
      Make(root, p.names, AsFile)
  }

  /** A child keeps its place among its siblings' names when it is replaced
      by a node of the same name. */
  lemma SubdirNamesUpdate(subdirs: seq<Dir>, j: nat, d: Dir)
    requires j < |subdirs| && d.name == subdirs[j].name
    ensures SubdirNames(subdirs[j := d]) == SubdirNames(subdirs)
  {
  }

  /** Following a pointer one more step. */
  lemma {:induction false} NodeAtAppend(root: Dir, idx: seq<nat>, k: nat)
    requires NodeAt(root, idx).Some?
    ensures NodeAt(root, idx + [k]) ==
      (var d := NodeAt(root, idx).value; if k < |d.subdirs| then Some(d.subdirs[k]) else None)
    decreases |idx|
  {
    if |idx| > 0 {
      assert (idx + [k])[0] == idx[0];
      assert (idx + [k])[1..] == idx[1..] + [k];
      NodeAtAppend(root.subdirs[idx[0]], idx[1..], k);
    } else {
      assert [] + [k] == [k];
      assert [k][1..] == [];
    }
  }

  /** The tree `root` with the node at `idx` replaced by `d`, every other
      node as it was. */
  function ReplaceAt(root: Dir, idx: seq<nat>, d: Dir): Dir
    requires NodeAt(root, idx).Some?
    decreases |idx|
  {
    if |idx| == 0 then d
    else
      var j := idx[0];
      root.(subdirs := root.subdirs[j := ReplaceAt(root.subdirs[j], idx[1..], d)])
  }

  /** A successful make changes exactly one node, the parent its path names:
      that node becomes the result of the add, and every other node of the
      tree is left as it was. */
  lemma {:induction false} MakeReplacesParent(root: Dir, cs: seq<Name>, kind: Kind)
    requires |cs| > 0 && Make(root, cs, kind).status.Done?
    ensures Locate(root, Parent(cs)).Some?
    ensures var idx := Locate(root, Parent(cs)).value;
      && Add(NodeAt(root, idx).value, Leaf(cs), kind).status.Done?
      && Make(root, cs, kind).dir == ReplaceAt(root, idx, Add(NodeAt(root, idx).value, Leaf(cs), kind).dir)
    decreases |cs|
  {
    if |cs| == 1 {
      assert Parent(cs) == [];
    } else {
      assert Parent(cs)[0] == cs[0] && Parent(cs)[1..] == Parent(cs[1..]);
      assert Leaf(cs[1..]) == Leaf(cs);
      var j := FirstMatch(SubdirNames(root.subdirs), cs[0]).value;
      MakeReplacesParent(root.subdirs[j], cs[1..], kind);
      var rest := Locate(root.subdirs[j], Parent(cs[1..])).value;
      assert Locate(root, Parent(cs)) == Some([j] + rest);
      assert ([j] + rest)[0] == j && ([j] + rest)[1..] == rest;
    }
  }

  /** After a successful make, the parent path still resolves to the same
      position, and the node there is the parent with the new entry added. */
  lemma {:induction false} MakeAtParent(root: Dir, cs: seq<Name>, kind: Kind)
    requires |cs| > 0 && Make(root, cs, kind).status.Done?
    ensures Locate(root, Parent(cs)).Some?
    ensures var idx := Locate(root, Parent(cs)).value;
      var after := Make(root, cs, kind).dir;
      && Locate(after, Parent(cs)) == Some(idx)
      && NodeAt(after, idx) == Some(Add(NodeAt(root, idx).value, Leaf(cs), kind).dir)
    decreases |cs|
  {
    if |cs| == 1 {
      assert Parent(cs) == [];
    } else {
      assert Parent(cs)[0] == cs[0] && Parent(cs)[1..] == Parent(cs[1..]);
      assert Leaf(cs[1..]) == Leaf(cs);
      var j := FirstMatch(SubdirNames(root.subdirs), cs[0]).value;
      var c := Make(root.subdirs[j], cs[1..], kind);
      MakeAtParent(root.subdirs[j], cs[1..], kind);
      var after := Make(root, cs, kind).dir;
      SubdirNamesUpdate(root.subdirs, j, c.dir);
      assert after.subdirs == root.subdirs[j := c.dir];
      assert FirstMatch(SubdirNames(after.subdirs), cs[0]) == Some(j);
      var rest := Locate(root.subdirs[j], Parent(cs[1..])).value;
      assert Locate(root, Parent(cs)) == Some([j] + rest);
      assert ([j] + rest)[0] == j && ([j] + rest)[1..] == rest;
    }
  }

  /** An entry appended under a name no sibling has is the first match. */
  lemma FirstMatchAppended(names: seq<seq<byte>>, n: Name)
    requires n !in names
    ensures FirstMatch(names + [n], n) == Some(|names|)
  {
    assert (names + [n])[|names|] == n;
  }

  /** A subdirectory just added is the one its name finds. */
  lemma {:induction false} AddedSubdirFound(parent: Dir, n: Name)
    requires AddSubdir(parent, n).status.Done?
    ensures var after := AddSubdir(parent, n).dir;
      && FirstMatch(SubdirNames(after.subdirs), n) == Some(|parent.subdirs|)
      && after.subdirs[|parent.subdirs|] == Dir(n, [], [])
  {
    var after := AddSubdir(parent, n).dir;
    CStringOfNulFree(n);
    assert SubdirNames(after.subdirs) == SubdirNames(parent.subdirs) + [n];
    FirstMatchAppended(SubdirNames(parent.subdirs), n);
  }

  /** A file just added is the one its name finds. */
  lemma {:induction false} AddedFileFound(parent: Dir, n: Name)
    requires AddFile(parent, n).status.Done?
    ensures var after := AddFile(parent, n).dir;
      && FirstMatch(FileNames(after.files), n) == Some(|parent.files|)
      && after.files[|parent.files|] == File(n)
  {
    var after := AddFile(parent, n).dir;
    CStringOfNulFree(n);
    assert FileNames(after.files) == FileNames(parent.files) + [n];
    FirstMatchAppended(FileNames(parent.files), n);
  }

  /** A subdirectory created by path opens by the same path, empty. */
  lemma MakeSubdirThenOpen(root: Dir, p: Path)
    requires MakeSubdir(root, p).status.Done?
    ensures OpenSubdir(MakeSubdir(root, p).dir, p) == Some(Dir(Leaf(p.names), [], []))
  {
    var cs := p.names;
    var after := MakeSubdir(root, p).dir;
    MakeAtParent(root, cs, AsSubdir);
    var idx := Locate(root, Parent(cs)).value;
    var parent := NodeAt(root, idx).value;
    AddedSubdirFound(parent, Leaf(cs));
    LocateSnoc(after, cs);
    NodeAtAppend(after, idx, |parent.subdirs|);
  }

  /** A file created by path opens by the same path. */
  lemma MakeFileThenOpen(root: Dir, p: Path)
    requires MakeFile(root, p).status.Done?
    ensures OpenFile(MakeFile(root, p).dir, p) == Some(File(Leaf(p.names)))
  {
    var cs := p.names;
    MakeAtParent(root, cs, AsFile);
    var idx := Locate(root, Parent(cs)).value;
    AddedFileFound(NodeAt(root, idx).value, Leaf(cs));
  }

  /** Creation by path keeps names distinct at every node, whether it
      succeeds or fails. */
  lemma {:induction false} MakeKeepsWellFormed(root: Dir, cs: seq<Name>, kind: Kind)
    requires |cs| > 0 && WellFormed(root)
    ensures WellFormed(Make(root, cs, kind).dir)
    decreases |cs|
  {
    var r := Make(root, cs, kind);
    if r.status.Done? {
      if |cs| == 1 {
        AddKeepsUnique(root, cs[0], kind);
        assert Unique(r.dir);
        assert WellFormed(Dir(cs[0], [], [])) by {
          assert ChildNames(Dir(cs[0], [], [])) == [];
        }
      } else {
        var j := FirstMatch(SubdirNames(root.subdirs), cs[0]).value;
        var c := Make(root.subdirs[j], cs[1..], kind);
        MakeKeepsWellFormed(root.subdirs[j], cs[1..], kind);
        SubdirNamesUpdate(root.subdirs, j, c.dir);
        assert ChildNames(r.dir) == ChildNames(root);
      }
    }
  }

  /** The invariant under the path-level entry points. */
  lemma MakeSubdirKeepsWellFormed(root: Dir, p: Path)
    requires WellFormed(root)
    ensures WellFormed(MakeSubdir(root, p).dir)
  {
    if p.Components? && |p.names| > 0 {
      MakeKeepsWellFormed(root, p.names, AsSubdir);
    }
  }

  lemma MakeFileKeepsWellFormed(root: Dir, p: Path)
    requires WellFormed(root)
    ensures WellFormed(MakeFile(root, p).dir)
  {
    if p.Components? && |p.names| > 0 {
      MakeKeepsWellFormed(root, p.names, AsFile);
    }
  }
}

=== FILE: dirs.dfy ===
/** Directory nodes and their in-place mutations (src/lib/dir.c).

  A node owns an ordered list of subdirectories and an ordered list of files;
  both keep insertion order. Within one node no two children, of either kind,
  may share a name as `strcmp` sees it, and every mutation checks this before
  it changes anything. `pure64_dir_import` does not check names, so a tree
  read back from a stream need not satisfy `WellFormed`.

  The C functions mutate the node they are given and return 0 or -1; here they
  return a `Change`: the node after the call and the status. When the status
  is a failure the node is the one passed in, unchanged. The C code does not
  always achieve this: when naming the new element fails after `realloc` has
  moved the array (dir.c:57-68 and dir.c:90-101) it keeps the old array
  pointer. Allocation is not modelled, and the model's add is atomic.
 */
module Dirs {
  import opened Bytes
  import opened Names
  import opened Results

  /** A file entry. Its content and its own on-disk format belong to file.c,
      which is not part of this model; at this layer only its name is seen. */
  datatype File = File(name: seq<byte>)

  /** A directory node. The C struct's `name_size`, `subdir_count` and
      `file_count` are the lengths of the three sequences. */
  datatype Dir = Dir(name: seq<byte>, subdirs: seq<Dir>, files: seq<File>)

  /** What an in-place mutation leaves behind: the node and the return code. */
  datatype Change = Change(dir: Dir, status: Status)

  /** The two kinds of child a node can be asked to create. */
  datatype Kind = AsFile | AsSubdir

  /** `pure64_dir_init`: a node with no name and no children. */
  function Init(): (d: Dir)
    ensures |d.name| == 0 && |d.subdirs| == 0 && |d.files| == 0
    ensures forall n: Name :: !NameExists(d, n)
  {
    Dir([], [], [])
  }

  /** The names of a node's children as `strcmp` sees them, in storage order:
      `FileNames` for its files and `SubdirNames` for its subdirectories. The
      two lists are kept apart because the lookups differ: a path walk scans
      only subdirectories, a file lookup only files, and `NameExists` both. */
  function FileNames(files: seq<File>): (r: seq<seq<byte>>)
    ensures |r| == |files|
    ensures forall i :: 0 <= i < |files| ==> r[i] == CString(files[i].name)
  {
    seq(|files|, i requires 0 <= i < |files| => CString(files[i].name))
  }

  function SubdirNames(subdirs: seq<Dir>): (r: seq<seq<byte>>)
    ensures |r| == |subdirs|
    ensures forall i :: 0 <= i < |subdirs| ==> r[i] == CString(subdirs[i].name)
  {
    seq(|subdirs|, i requires 0 <= i < |subdirs| => CString(subdirs[i].name))
  }

  /** Every child name of `d`, files first, in the order `pure64_dir_name_exists`
      scans them. */
  function ChildNames(d: Dir): seq<seq<byte>> {
    FileNames(d.files) + SubdirNames(d.subdirs)
  }

  /** The index of the first entry of `names` equal to `n`: where the C scan
      loops (dir.c:376-381, 437-442, 459-464) stop. */
  function FirstMatch(names: seq<seq<byte>>, n: Name): (r: Option<nat>)
    ensures r.Some? ==> r.value < |names| && names[r.value] == n
    ensures r.Some? ==> forall k :: 0 <= k < r.value ==> names[k] != n
    ensures r.None? <==> n !in names
  {
    if |names| == 0 then None
    else if names[0] == n then Some(0)
    else match FirstMatch(names[1..], n)
      case None => None
      case Some(k) => Some(k + 1)
  }

  /** `pure64_dir_name_exists`: whether a file or a subdirectory of `d` is
      named `n`. Both lists are searched. */
  function NameExists(d: Dir, n: Name): (b: bool)
    ensures b <==> ((exists i :: 0 <= i < |d.files| && Matches(d.files[i].name, n))
                 || (exists j :: 0 <= j < |d.subdirs| && Matches(d.subdirs[j].name, n)))
  {
    FirstMatch(FileNames(d.files), n).Some? || FirstMatch(SubdirNames(d.subdirs), n).Some?
  }

  /** No two entries of `names` are equal. */
  predicate Distinct(names: seq<seq<byte>>) {
    forall i, j :: 0 <= i < j < |names| ==> names[i] != names[j]
  }

  /** The per-node invariant: children's names are pairwise distinct across
      both lists. */
  predicate Unique(d: Dir) {
    Distinct(ChildNames(d))
  }

  /** The invariant at every node of the tree. */
  predicate WellFormed(d: Dir) {
    && Unique(d)
    && forall i :: 0 <= i < |d.subdirs| ==> WellFormed(d.subdirs[i])
  }

  /** `pure64_dir_set_name`: the node takes a copy of the C string `n`
      (`strlen(n)` bytes), keeping its children. */
  function SetName(d: Dir, n: Name): (r: Dir)
    ensures |r.name| == |n| && Matches(r.name, n)
    ensures r.subdirs == d.subdirs && r.files == d.files
  {
    CStringOfNulFree(n);
    d.(name := n)
  }

  /** `pure64_dir_add_file`: appends a file named `n`, unless the name is
      taken by a file or a subdirectory. */
  function AddFile(d: Dir, n: Name): (r: Change)
    ensures r.status.Failed? <==> NameExists(d, n)
    ensures r.status.Failed? ==> r.status.error == DuplicateName && r.dir == d
    ensures r.status.Done? ==>
      && r.dir.name == d.name && r.dir.subdirs == d.subdirs
      && |r.dir.files| == |d.files| + 1
      && r.dir.files[..|d.files|] == d.files
      && r.dir.files[|d.files|].name == n
  {
    if NameExists(d, n) then Change(d, Failed(DuplicateName))
    else Change(d.(files := d.files + [File(n)]), Done)
  }

  /** `pure64_dir_add_subdir`: appends an empty subdirectory named `n`,
      unless the name is taken by a file or a subdirectory. */
  function AddSubdir(d: Dir, n: Name): (r: Change)
    ensures r.status.Failed? <==> NameExists(d, n)
    ensures r.status.Failed? ==> r.status.error == DuplicateName && r.dir == d
    ensures r.status.Done? ==>
      && r.dir.name == d.name && r.dir.files == d.files
      && |r.dir.subdirs| == |d.subdirs| + 1
      && r.dir.subdirs[..|d.subdirs|] == d.subdirs
      && r.dir.subdirs[|d.subdirs|] == Dir(n, [], [])
  {
    if NameExists(d, n) then Change(d, Failed(DuplicateName))
    else Change(d.(subdirs := d.subdirs + [SetName(Init(), n)]), Done)
  }

  /** The add selected by `kind`. */
  function Add(d: Dir, n: Name, kind: Kind): Change {
    match kind
    case AsFile => AddFile(d, n)
    case AsSubdir => AddSubdir(d, n)
  }

  /** After an add, the names present are those present before plus `n` when
      the add succeeded: a name never added stays absent. */
  lemma {:induction false} AddNames(d: Dir, n: Name, kind: Kind, m: Name)
    ensures NameExists(Add(d, n, kind).dir, m)
        <==> NameExists(d, m) || (Add(d, n, kind).status.Done? && m == n)
  {
    var r := Add(d, n, kind);
    if r.status.Done? {
      CStringOfNulFree(n);
      match kind
      case AsFile =>
        assert FileNames(r.dir.files) == FileNames(d.files) + [n];
        assert ChildNames(r.dir) == FileNames(d.files) + [n] + SubdirNames(d.subdirs);
      case AsSubdir =>
        assert SubdirNames(r.dir.subdirs) == SubdirNames(d.subdirs) + [n];
    }
  }

  /** After an add, whether it succeeded or found a duplicate, the name is
      present. */
  lemma AddThenExists(d: Dir, n: Name, kind: Kind)
    ensures NameExists(Add(d, n, kind).dir, n)
  {
    AddNames(d, n, kind, n);
  }

  /** Distinct names stay distinct when one more name, not among them, is
      placed between `front` and `back`. */
  lemma {:induction false} DistinctInsert(front: seq<seq<byte>>, back: seq<seq<byte>>, n: seq<byte>)
    requires Distinct(front + back) && n !in front + back
    ensures Distinct(front + [n] + back)
  {
    var before := front + back;
    var s := front + [n] + back;
    forall i, j | 0 <= i < j < |s|
      ensures s[i] != s[j]
    {
      var f := |front|;
      if i == f {
        assert s[j] == before[j - 1];
      } else if j == f {
        assert s[i] == before[i];
      } else {
        var i' := if i < f then i else i - 1;
        var j' := if j < f then j else j - 1;
        assert s[i] == before[i'] && s[j] == before[j'];
      }
    }
  }

  /** Whether an add succeeds or fails, a node whose children had distinct
      names still has. */
  lemma {:induction false} AddKeepsUnique(d: Dir, n: Name, kind: Kind)
    requires Unique(d)
    ensures Unique(Add(d, n, kind).dir)
  {
    var r := Add(d, n, kind);
    if r.status.Done? {
      CStringOfNulFree(n);
      var fs, ss := FileNames(d.files), SubdirNames(d.subdirs);
      assert n !in fs + ss by {
        assert !NameExists(d, n);
      }
      match kind
      case AsFile =>
        assert FileNames(r.dir.files) == fs + [n];
        assert ChildNames(r.dir) == fs + [n] + ss;
        DistinctInsert(fs, ss, n);
      case AsSubdir =>
        assert SubdirNames(r.dir.subdirs) == ss + [n];
        assert ChildNames(r.dir) == fs + ss + [n];
        assert fs + ss + [] == fs + ss;
        DistinctInsert(fs + ss, [], n);
        assert fs + ss + [n] + [] == fs + ss + [n];
    }
  }

  /** The subdirectory names of a node are a slice of its child names, so they
      are distinct too: at most one subdirectory answers to a name. */
  lemma UniqueSubdirName(d: Dir, j: nat, k: nat)
    requires Unique(d)
    requires j < |d.subdirs| && k < |d.subdirs|
    requires CString(d.subdirs[j].name) == CString(d.subdirs[k].name)
    ensures j == k
  {
    var c := ChildNames(d);
    var f := |d.files|;
    assert c[f + j] == CString(d.subdirs[j].name);
    assert c[f + k] == CString(d.subdirs[k].name);
  }

  /** Likewise at most one file answers to a name. */
  lemma UniqueFileName(d: Dir, j: nat, k: nat)
    requires Unique(d)
    requires j < |d.files| && k < |d.files|
    requires CString(d.files[j].name) == CString(d.files[k].name)
    ensures j == k
  {
    var c := ChildNames(d);
    assert c[j] == CString(d.files[j].name);
    assert c[k] == CString(d.files[k].name);
  }

  /** And no file shares its name with a subdirectory. */
  lemma UniqueAcrossKinds(d: Dir, j: nat, k: nat)
    requires Unique(d)
    requires j < |d.files| && k < |d.subdirs|
    ensures CString(d.files[j].name) != CString(d.subdirs[k].name)
  {
    var c := ChildNames(d);
    assert c[j] == CString(d.files[j].name);
    assert c[|d.files| + k] == CString(d.subdirs[k].name);
  }
}

=== FILE: file_codec.dfy ===
/** A stand-in for the file entry's own serialisation.

  `pure64_file_export` and `pure64_file_import` live in file.c, which is not
  part of this model, and their block format is opaque to the directory code.
  So that the directory codec can be stated and its round trip proved, a file
  block is modelled here as the simplest format that carries what the
  directory layer observes, the name: a 64-bit length followed by the name
  bytes. The directory codec relies on three facts about it: import inverts
  export, every import consumes at least one byte, and a block cut short
  does not import.
 */
module FileCodec {
  import opened Bytes
  import opened Results
  import opened Streams
  import opened Dirs

  /** The length of the name fits its 64-bit field. */
  predicate FileFits(f: File) {
    IsU64(|f.name|)
  }

  /** The stand-in file block. */
  function EncodeFile(order: ByteOrder, f: File): seq<byte>
    requires FileFits(f)
  {
    EncodeU64(order, |f.name|) + f.name
  }

  /** The stand-in for `pure64_file_import`. */
  function ImportFile(order: ByteOrder, s: seq<byte>): (r: Result<(File, seq<byte>)>)
    ensures r.Ok? ==> |r.value.1| < |s| && IsSuffix(r.value.1, s) && FileFits(r.value.0)
    ensures r.Err? ==> r.error == IoError
  {
    match DecodeU64(order, s)
    case Err(e) => Err(e)
    case Ok((size, s1)) =>
      if |s1| < size then Err(IoError)
      else Ok((File(s1[..size]), s1[size..]))
  }

  /** The stand-in for `pure64_file_export`. */
  function ExportFile(order: ByteOrder, f: File, out: Sink): (r: Result<Sink>)
    requires FileFits(f)
  {
    match Write(out, EncodeU64(order, |f.name|))
    case Err(e) => Err(e)
    case Ok(o) => Write(o, f.name)
  }

  lemma ExportFileWrites(order: ByteOrder, f: File, out: Sink)
    requires FileFits(f)
    ensures ExportFile(order, f, out) == Write(out, EncodeFile(order, f))
  {
    WriteConcat(out, EncodeU64(order, |f.name|), f.name);
  }

  lemma ImportEncodedFile(order: ByteOrder, f: File, rest: seq<byte>)
    requires FileFits(f)
    ensures ImportFile(order, EncodeFile(order, f) + rest) == Ok((f, rest))
  {
    var h := EncodeU64(order, |f.name|);
    assert EncodeFile(order, f) + rest == h + (f.name + rest);
    DecodeEncodeU64(order, |f.name|, f.name + rest);
    assert (f.name + rest)[..|f.name|] == f.name;
    assert (f.name + rest)[|f.name|..] == rest;
  }

  /** A file block cut short is a short read. */
  lemma ImportFileCut(order: ByteOrder, f: File, t: seq<byte>)
    requires FileFits(f) && CutShort(t, EncodeFile(order, f))
    ensures ImportFile(order, t) == Err(IoError)
  {
    var h := EncodeU64(order, |f.name|);
    if |t| >= |h| {
      CutShortSplit(t, h, f.name);
      DecodeEncodeU64(order, |f.name|, t[|h|..]);
    }
  }
}

=== FILE: names.dfy ===
/** Names as the C code compares them.

  A name is stored as `name_size` raw bytes followed by a NUL terminator, and
  every comparison in dir.c is `strcmp`, which stops at the first NUL. A name
  set through `pure64_dir_set_name` or taken from a parsed path is a C string
  and so holds no NUL byte; a name read back by `pure64_dir_import` is
  `name_size` arbitrary bytes and may. `CString` is the part `strcmp` sees.
 */
module Names {
  import opened Bytes

  predicate NulFree(s: seq<byte>) {
    forall i :: 0 <= i < |s| ==> s[i] != 0
  }

  /** A C string argument: a name, or one component of a normalised path. */
  type Name = s: seq<byte> | NulFree(s)

  /** The bytes of a stored name that `strcmp` compares: everything before the
      first NUL byte, or the whole name when it has none. */
  function CString(s: seq<byte>): (r: seq<byte>)
    ensures |r| <= |s| && r == s[..|r|]
    ensures NulFree(r)
    ensures |r| < |s| ==> s[|r|] == 0
  {
    if |s| == 0 || s[0] == 0 then [] else [s[0]] + CString(s[1..])
  }

  /** A name without NUL bytes is compared in full. */
  lemma CStringOfNulFree(s: seq<byte>)
    requires NulFree(s)
    ensures CString(s) == s
  {
  }

  /** `strcmp(stored, n) == 0` for a NUL-free `n`. */
  predicate Matches(stored: seq<byte>, n: Name) {
    CString(stored) == n
  }
}

=== FILE: results.dfy ===
/** Outcome types shared by the directory model.

  The C code reports every failure as the integer -1 (or a NULL pointer for
  the lookups); the model keeps the kind of failure so that contracts can say
  which guard rejected a call.
 */
module Results {

  /** Why an operation failed. */
  datatype Error =
    | DuplicateName   // a child of the node already carries the requested name
    | InvalidPath     // the path did not parse, or normalised to zero components
    | NotFound        // a component before the last names no subdirectory
    | IoError         // the stream ended early or had no room left

  /** A value that may be absent: the model of a pointer that may be NULL. */
  datatype Option<+T> = None | Some(value: T)

  /** A value or the error that prevented computing it. */
  datatype Result<+T> = Ok(value: T) | Err(error: Error)

  /** The integer status of an in-place mutation: 0 or -1 in the C code. */
  datatype Status = Done | Failed(error: Error)
}

=== FILE: scenarios.dfy ===
/** Example trees, and what the path operations do on them for any choice of
    names: a root holding a `boot` directory, where `boot/grub` can be made
    but `a/b` cannot, a tree holding the file `boot/kernel` and the file
    `readme` at its root, and trees whose children share a name, which only
    import can produce. */
module Scenarios {
  import opened Bytes
  import opened Results
  import opened Names
  import opened Dirs
  import opened DirPaths
  import opened DirCodec

  /** A root holding only the empty subdirectory `boot`. */
  function BootOnly(boot: Name): (root: Dir)
    ensures root == Dir([], [Dir(boot, [], [])], [])
  {
    AddSubdir(Init(), boot).dir
  }

  /** A one-component make in an empty directory adds the entry. */
  lemma MakeInEmpty(dir: Dir, grub: Name)
    requires dir.subdirs == [] && dir.files == []
    ensures Make(dir, [grub], AsSubdir) == Change(dir.(subdirs := [Dir(grub, [], [])]), Done)
  {
    assert !NameExists(dir, grub);
  }

  /** `boot/grub` is created under the existing `boot`. */
  lemma MakeUnderExisting(boot: Name, grub: Name)
    ensures MakeSubdir(BootOnly(boot), Components([boot, grub]))
      == Change(Dir([], [Dir(boot, [Dir(grub, [], [])], [])], []), Done)
  {
    var root := BootOnly(boot);
    CStringOfNulFree(boot);
    assert SubdirNames(root.subdirs) == [boot];
    MakeInEmpty(Dir(boot, [], []), grub);
    assert [boot, grub][1..] == [grub];
  }

  /** `a/b` is refused because `a` was never created, and nothing is created
      on the way. */
  lemma NoAutoCreate(boot: Name, a: Name, b: Name)
    requires a != boot
    ensures MakeSubdir(BootOnly(boot), Components([a, b])) == Change(BootOnly(boot), Failed(NotFound))
  {
    var root := BootOnly(boot);
    CStringOfNulFree(boot);
    assert SubdirNames(root.subdirs) == [boot];
    assert FirstMatch(SubdirNames(root.subdirs), a) == None;
  }

  /** root -> `boot` -> file `kernel`, and root -> file `readme`. */
  function KernelTree(boot: Name, kernel: Name, readme: Name): Dir {
    Dir([], [Dir(boot, [], [File(kernel)])], [File(readme)])
  }

  /** `boot/kernel` opens the kernel. */
  lemma OpenKernel(boot: Name, kernel: Name, readme: Name)
    ensures OpenFile(KernelTree(boot, kernel, readme), Components([boot, kernel])) == Some(File(kernel))
  {
    var root := KernelTree(boot, kernel, readme);
    CStringOfNulFree(boot);
    CStringOfNulFree(kernel);
    assert SubdirNames(root.subdirs) == [boot];
    assert FirstMatch(SubdirNames(root.subdirs), boot) == Some(0);
    assert [boot][1..] == [] && [0] + [] == [0];
    assert Locate(root, [boot]) == Some([0]);
    assert FileNames(root.subdirs[0].files) == [kernel];
    assert Parent([boot, kernel]) == [boot];
  }

  /** `boot/missing` is simply not found: no error, no entry. */
  lemma OpenMissing(boot: Name, kernel: Name, readme: Name, missing: Name)
    requires missing != kernel
    ensures OpenFile(KernelTree(boot, kernel, readme), Components([boot, missing])) == None
  {
    var root := KernelTree(boot, kernel, readme);
    CStringOfNulFree(boot);
    CStringOfNulFree(kernel);
    assert SubdirNames(root.subdirs) == [boot];
    assert FirstMatch(SubdirNames(root.subdirs), boot) == Some(0);
    assert [boot][1..] == [] && [0] + [] == [0];
    assert Locate(root, [boot]) == Some([0]);
    assert FileNames(root.subdirs[0].files) == [kernel];
    assert Parent([boot, missing]) == [boot];
  }

  /** `readme` opens the file at the root. */
  lemma OpenReadme(boot: Name, kernel: Name, readme: Name)
    ensures OpenFile(KernelTree(boot, kernel, readme), Components([readme])) == Some(File(readme))
  {
    var root := KernelTree(boot, kernel, readme);
    CStringOfNulFree(readme);
    assert Parent([readme]) == [];
    assert FileNames(root.files) == [readme];
  }

  /** A root holding a subdirectory and a file of the same name `a`: a tree
      that adds cannot build, but import can. */
  function Shared(a: Name): Dir {
    Dir([], [Dir(a, [], [])], [File(a)])
  }

  /** Without distinct names a path can open both as a subdirectory and as a
      file, so the file lookup's disjointness from the directory walk needs the
      invariant. */
  lemma SharedNameOpensBoth(a: Name)
    ensures OpenSubdir(Shared(a), Components([a])) == Some(Dir(a, [], []))
    ensures OpenFile(Shared(a), Components([a])) == Some(File(a))
    ensures !WellFormed(Shared(a))
  {
    var root := Shared(a);
    CStringOfNulFree(a);
    assert SubdirNames(root.subdirs) == [a];
    assert FileNames(root.files) == [a];
    assert FirstMatch(SubdirNames(root.subdirs), a) == Some(0);
    assert [a][1..] == [] && [0] + [] == [0];
    assert Locate(root, [a]) == Some([0]);
    assert Parent([a]) == [];
    assert ChildNames(root)[0] == ChildNames(root)[1];
  }

  /** A root whose two subdirectories are both named `a`. */
  function Twins(a: Name): Dir {
    Dir([], [Dir(a, [], []), Dir(a, [], [])], [])
  }

  /** Two children of one name break the invariant. */
  lemma TwinsShareName(a: Name)
    ensures !WellFormed(Twins(a))
  {
    var d := Twins(a);
    CStringOfNulFree(a);
    assert ChildNames(d)[0] == ChildNames(d)[1] == a;
  }

  /** Import takes names as they come: a block whose two subdirectories share
      a name reads back as that tree, which no sequence of adds could build. */
  lemma ImportKeepsDuplicates(order: ByteOrder, a: Name)
    requires IsU64(|a|)
    ensures Fits(Twins(a))
    ensures Import(order, Encode(order, Twins(a))) == Ok((Twins(a), []))
    ensures !WellFormed(Twins(a))
  {
    var d := Twins(a);
    assert Fits(d.subdirs[0]) && Fits(d.subdirs[1]);
    ImportEncoded(order, d, []);
    assert Encode(order, d) + [] == Encode(order, d);
    TwinsShareName(a);
  }
}

=== FILE: streams.dfy ===
/** Byte streams as the directory codec sees them.

  An input stream is the sequence of bytes still to be read; reading past its
  end is a short read. An output stream is a `Sink`: the bytes written so far
  and how many more it accepts; a write that does not fit is a short write.
  Both are failures of the whole operation, reported as `IoError`.
 */
module Streams {
  import opened Bytes
  import opened Results

  datatype Sink = Sink(written: seq<byte>, room: nat)

  /** `fwrite` of all of `bytes`, which fails when the stream cannot take them. */
  function Write(out: Sink, bytes: seq<byte>): Result<Sink> {
    if |bytes| <= out.room then Ok(Sink(out.written + bytes, out.room - |bytes|))
    else Err(IoError)
  }

  /** Two writes in a row, the second only if the first succeeded, have the
      effect of one write of both. */
  lemma WriteConcat(out: Sink, a: seq<byte>, b: seq<byte>)
    ensures (match Write(out, a)
             case Err(e) => Err(e)
             case Ok(o) => Write(o, b)) == Write(out, a + b)
  {
    assert out.written + a + b == out.written + (a + b);
  }

  /** `rest` is what remains of `s` after reading some bytes from its front. */
  predicate IsSuffix(rest: seq<byte>, s: seq<byte>) {
    |rest| <= |s| && rest == s[|s| - |rest|..]
  }

  /** What remains after two reads in a row remains of the original stream. */
  lemma SuffixTrans(a: seq<byte>, b: seq<byte>, c: seq<byte>)
    requires IsSuffix(a, b) && IsSuffix(b, c)
    ensures IsSuffix(a, c)
  {
  }

  lemma AppendAssoc(a: seq<byte>, b: seq<byte>, c: seq<byte>)
    ensures a + (b + c) == (a + b) + c
  {
  }

  /** `t` is a proper prefix of `e`: a stream that stops before `e` ends. */
  predicate CutShort(t: seq<byte>, e: seq<byte>) {
    |t| < |e| && t == e[..|t|]
  }

  /** A proper prefix of `a + b` that reaches past `a` is `a` followed by a
      proper prefix of `b`. */
  lemma CutShortSplit(t: seq<byte>, a: seq<byte>, b: seq<byte>)
    requires CutShort(t, a + b) && |a| <= |t|
    ensures t == a + t[|a|..] && CutShort(t[|a|..], b)
  {
    assert t[..|a|] == (a + b)[..|a|] == a;
    assert t == t[..|a|] + t[|a|..];
  }

  /** A proper prefix of `a + b` that stops inside `a` is a proper prefix of `a`. */
  lemma CutShortInside(t: seq<byte>, a: seq<byte>, b: seq<byte>)
    requires CutShort(t, a + b) && |t| < |a|
    ensures CutShort(t, a)
  {
    assert (a + b)[..|t|] == a[..|t|];
  }
}
